=== FILE: README.md ===
# PhonePro in Dafny

A model of the decision logic of PhonePro, a phone recommendation web
application: a React client (`components/phonepro-app.tsx`) and a FastAPI
backend (`backend/main.py`).

The client side covers:

- the root component's signed-in identity, mirrored to the `phonepro_username`
  key of local storage;
- the authentication view's sign-up checks, and how each server reply becomes
  a message, a tab switch or a session;
- the application view's model filter, the defaults taken from the option
  lists, the recommendation request body, and the error text for a failed
  recommendation.

The server side covers:

- the user registry, with `/signup` and `/login`;
- the `/options` lists;
- the `/phone/{model_name}` lookup;
- all of these behind one request handler whose only state is the registry.

The `Flows` module runs the client's requests through the server model. It
proves the journey the authentication test drives: sign up, log in, log out.

Modules, one per file:

| file | module | what it holds |
|---|---|---|
| wrappers.dfy | Wrappers | `Option` |
| json.dfy | Json | parsed JSON values, JavaScript truthiness, property reads, `JSON.stringify` |
| text.dfy | Text | `trim` (the ECMAScript white-space set), ASCII `toLowerCase`, `includes`, Python's `str` order |
| sorting.dfy | Sorting | Python's `sorted` and pandas' `unique` on string lists |
| http.dfy | Http | server responses, `HTTPException` bodies, what `fetch` hands the client |
| registry.dfy | Registry | `users.json` as a map, `signup`, `login`, bcrypt as an uninterpreted pair |
| catalog.dfy | Catalog | `/options` and `/phone/{model_name}` |
| server.dfy | Server | the backend as a state machine over requests |
| session.dfy | Session | the root component: startup, authenticated, logout |
| auth_view.dfy | AuthView | sign-up checks, `handleSignup`, `handleLogin` |
| app_view.dfy | ApplicationView | option lists, the model filter, defaults, the recommendation body and reply |
| flows.dfy | Flows | client and server together |

Parameters stand in for what the code cannot see:

- The reply to each `fetch` is a `Reply`: a status with a parsed body, or a
  thrown error.
- bcrypt's `hashpw` and `checkpw` are a `Hasher` of two functions. The random
  salt is an argument of the hash.
- Local storage is a map from keys to strings.
- The pickled label encoders and the CSV dataset are plain values.

Some behaviour of the code is easy to misread:

- On a failed sign-up or login, the client shows
  `data?.detail || JSON.stringify(data) || "Sign up failed."`. `JSON.stringify`
  of a parsed body is never empty, so the generic fallback text is never shown.
  Without a truthy `detail`, the client shows the body's JSON text, such as
  `{}`. See `AuthView.FailureText` and `AuthView.FallbackNeverShown`.
- A failed recommendation whose `detail` is present but falsy (`null`, `0`,
  `false`) gets "Recommendation failed.", not the "Invalid input." prefix. The
  code tests truthiness before it tests the type.
- On a failed sign-up or login, the client shows a truthy non-string `detail`
  as it came, without stringifying it. Only the recommendation handler
  stringifies such details. This is why a message text is a `Json` value.
- Login sends its request without checking its inputs. Only sign-up checks.

## Model

| member | source | states |
|---|---|---|
| Json.Stringify | components/phonepro-app.tsx:388 | `JSON.stringify` output is never empty, and its first character tells the kind of value (null, boolean, number, string, array, object) |
| Json.Truthy | components/phonepro-app.tsx:387-389 | JavaScript truthiness: a string is truthy exactly when non-empty, a number exactly when non-zero, a boolean exactly when `true`, arrays and objects always, `null` never |
| Json.Find | components/phonepro-app.tsx:148 | a property read finds the last member with that key, as `JSON.parse` keeps it, and finds nothing only when no member has that key |
| Json.Get | components/phonepro-app.tsx:148 | `data?.detail` reads the last member with the key of an object, and anything that is not an object has no properties |
| Json.FindDistinct | components/phonepro-app.tsx:362-374 | in an object with distinct keys, reading a member's key finds that member |
| Http.Error | backend/main.py:107 | an `HTTPException` answers with its status and a body whose `detail` is the given text |
| Http.BodyOrEmpty | components/phonepro-app.tsx:146 | a body that does not parse reads as the empty object, and a parsed body as itself |
| Text.Trim | components/phonepro-app.tsx:345 | `trim()` returns a slice of the input that neither starts nor ends with white space, with only white space before and after it; it is empty exactly when the input is all white space |
| Text.LeadingSpaces | components/phonepro-app.tsx:345 | the leading run that `trim` removes is all white space and stops at the first non-space character |
| Text.TrailingStart | components/phonepro-app.tsx:345 | the trailing run that `trim` removes is all white space and starts after the last non-space character |
| Text.Lower | components/phonepro-app.tsx:347 | `toLowerCase` keeps the length and lowers each character (ASCII letters) |
| Text.IncludesIffOccurs | components/phonepro-app.tsx:347 | `includes` holds exactly when the needle occurs at some position of the haystack, in both directions |
| Text.LessEqTotal | backend/main.py:138 | Python's string order compares any two strings |
| Text.LessEqTransitive | backend/main.py:138 | Python's string order is transitive |
| Text.LessEqAntisymmetric | backend/main.py:138 | two strings each at most the other are equal |
| Sorting.Insert | backend/main.py:138 | inserting into a sorted list keeps it sorted and adds exactly the one element |
| Sorting.Sort | backend/main.py:138 | `sorted` returns an ascending permutation of its input |
| Sorting.SortedPermutationUnique | backend/main.py:138-141 | any two sorted permutations of a list are equal, so every correct sort, Python's included, gives the same list |
| Sorting.SortedPairwise | backend/main.py:138 | in a sorted list every element is at most every later one |
| Sorting.Unique | backend/main.py:141 | `unique()` keeps each model name once and keeps exactly the names of the column |
| Registry.Signup | backend/main.py:103-116 | a taken name fails with 400 "Username already exists" before the empty-field check, then an empty field fails with 400 "Please fill out all fields", and both failures leave the map unchanged. Success (201) adds exactly the new name with its e-mail and `hash(password)` and keeps every other account |
| Registry.SignupPreservesValid | backend/main.py:106-114 | signup only ever stores accounts with non-empty name and e-mail and a hash of a non-empty password |
| Registry.Login | backend/main.py:118-127 | an unknown name gets 404 "User does not exist" and a failing password check gets 401 "Incorrect password". Only a known name whose password checks gets 200, which echoes the username |
| Registry.SignupThenLogin | backend/main.py:111-127 | if `check(hash(p), p)` holds, then after a successful signup a login with the same password succeeds and returns the username |
| Catalog.GetFormOptions | backend/main.py:134-142 | each `/options` list is sorted and is a permutation of its encoder's classes. The model list is sorted, has no duplicates and holds exactly the dataset's model names |
| Catalog.SortedClassesUnchanged | backend/main.py:138-140 | classes a fitted label encoder already holds in sorted order come back from `/options` unchanged |
| Catalog.OptionsBody | backend/main.py:137-142 | the `/options` body holds each list under its key (`brand_names`, `processor_brands`, `operating_systems`, `phone_models`) as an array of its strings |
| Catalog.FirstMatch | backend/main.py:147 | the index found is the first row whose model equals the name, and nothing is found only when no row matches |
| Catalog.GetPhoneDetails | backend/main.py:144-151 | the lookup answers 404 "Phone model not found" exactly when no row has the model. Otherwise it answers 200 with the record of the first matching row |
| Server.Handle | backend/main.py:103-151 | each request is answered by the endpoint it names: signup by `Signup` on the registry, login by `Login`, `/options` with 200 and the sorted lists, and `/phone` by the first-match lookup. Only signup can change the state, only under 201, and it changes only the registry |
| Server.HandlePreservesValid | backend/main.py:103-151 | every request keeps the registry valid |
| Session.SignedIn | components/phonepro-app.tsx:683 | the application view is shown exactly when the identity is a non-empty name |
| Session.Startup | components/phonepro-app.tsx:665-670 | on mount the identity is restored only when the stored name is non-empty, and storage is only read |
| Session.StartupAgrees | components/phonepro-app.tsx:665-670 | right after mount, a reload would show the same view for the same user |
| Session.Authed | components/phonepro-app.tsx:176-177 | after login the name is the identity and is stored under the key, and every other storage key is unchanged |
| Session.Logout | components/phonepro-app.tsx:676-679 | logout clears the identity and removes the key, and every other storage key is unchanged |
| Session.TransitionsAgree | components/phonepro-app.tsx:665-679 | after login or logout, a reload would show the same view for the same user |
| Session.ReloadAfterLoginAndLogout | components/phonepro-app.tsx:665-679 | a reload after login restores the user, and a reload after logout shows the sign-in view |
| AuthView.CheckSignup | components/phonepro-app.tsx:127-134 | an empty field blocks with "Please fill in all sign up fields." and takes precedence over a mismatch, which blocks with "Passwords do not match.". A form is sent exactly when it passes both, as typed and without the confirmation |
| AuthView.FailureText | components/phonepro-app.tsx:148 | an error reply shows a truthy `detail` as it came, and otherwise the body's JSON text |
| AuthView.SuccessText | components/phonepro-app.tsx:150 | a success shows the server's truthy `message`, and otherwise the fallback text itself |
| AuthView.ThrownText | components/phonepro-app.tsx:154 | a thrown error shows its message when non-empty, and exactly the fallback when the message is empty |
| AuthView.HandleSignup | components/phonepro-app.tsx:125-158 | a request is sent exactly when the checks pass, and a blocked form shows the check's error. A sent form shows the failure text for a non-2xx reply ("Sign up failed." fallback), the success text for a 2xx reply ("Sign up successful. You can now log in." fallback) and the thrown error's message ("Sign up error." fallback). A non-2xx reply and a thrown error show an error message. Only a 2xx reply gives a success message and switches to the login tab |
| AuthView.HandleLogin | components/phonepro-app.tsx:160-184 | login always sends the request. A 2xx reply stores the name and makes it the identity. A non-2xx reply shows the failure text ("Login failed." fallback) and a thrown error its message ("Login error." fallback), both leaving the session alone; the tab never changes |
| ApplicationView.Lists | components/phonepro-app.tsx:331-334 | before `/options` loads, every list is empty; after, the lists are the server's |
| ApplicationView.KeepMatching | components/phonepro-app.tsx:347 | the filter keeps an ordered subsequence of the models, every kept model matches, and each matching model is kept as often as it occurs |
| ApplicationView.Needle | components/phonepro-app.tsx:345 | the trimmed, lowered filter is empty exactly when the filter text is all white space |
| ApplicationView.FilterModels | components/phonepro-app.tsx:344-348 | a blank or white-space-only filter returns the list unchanged. Any filter returns an order-preserving subsequence of the list. A non-blank filter keeps only models that match, and keeps each matching model as often as it occurs |
| ApplicationView.FilterKeepsExactlyMatches | components/phonepro-app.tsx:347 | with a non-blank filter, a model is kept exactly when the trimmed, lowered filter occurs in its lower-case name |
| ApplicationView.FilterExample | components/phonepro-app.tsx:344-348 | filtering ["Pixel 7", "Galaxy S21", "Pixel 6a"] by " PIX " gives ["Pixel 7", "Pixel 6a"] |
| ApplicationView.FillDefault | components/phonepro-app.tsx:338 | a value is replaced by the first list entry only when the value is empty and the list is not |
| ApplicationView.ApplyDefaults | components/phonepro-app.tsx:337-342 | brand, processor, OS and model each keep a non-empty value, take the first entry of their own list when empty and the list is not, and stay empty when both are |
| ApplicationView.DefaultsIdempotent | components/phonepro-app.tsx:337-342 | a second run of the defaulting effect changes nothing |
| ApplicationView.DefaultsKeepChoices | components/phonepro-app.tsx:337-342 | a non-empty value is never overwritten, and nothing changes while the lists are unloaded |
| ApplicationView.Payload | components/phonepro-app.tsx:362-374 | the posted body has one member per field of the backend's recommendation input, in order, under its name and with its JSON type. Reading a member gives its own control's value: `price` the price, `internal_memory` the storage, `os` the OS, and so on, with the 5G flag true exactly for "Yes" |
| ApplicationView.PayloadLookup | components/phonepro-app.tsx:362-374 | the body's keys are distinct, so reading any member's key gives that member's value |
| ApplicationView.RecommendFailure | components/phonepro-app.tsx:385-392 | a truthy non-string detail gives "Invalid input. " followed by its JSON text. A non-empty string detail is shown as is. Anything else gives "Recommendation failed.". The text is never empty |
| ApplicationView.HandleRecommend | components/phonepro-app.tsx:357-402 | a result is stored exactly on a 2xx reply, with "Recommendation generated.". A non-2xx reply shows the recommendation failure text, and a thrown error its message or "Recommendation error."; neither stores a result |
| Flows.SignupFlow | components/phonepro-app.tsx:146-151 | a fresh sign-up is stored by the server, and the client switches to the login tab showing "User created successfully! Please login." |
| Flows.DuplicateSignupFlow | backend/main.py:106-107 | a sign-up under a taken name leaves the server state as it was, and the client shows "Username already exists" on the same tab |
| Flows.SignupLoginLogoutFlow | backend/automation_tests/test_authentication.py:26-72 | sign up, log in with the same password and log out. After login the user is signed in, stored, and kept on reload. After logout the user is signed out, unstored, and kept out on reload |
| Flows.PayloadAccepted | backend/main.py:78-89 | the body the client posts to `/recommend` has every field of `RecommendationInput`, under the same names (with the `5G_or_not` alias) and with the JSON type each needs |

## Left out

- The `/recommend` computation (backend/main.py:153-205) is not modelled. It uses pandas, pickled scikit-learn encoders and scaler, floating-point weights and cosine similarity. Only the request body the client sends is modelled.
- Reading and writing `users.json`, and loading the CSV and pickle files at startup, are left out. The registry is a map, and the encoders and the dataset are values.
- bcrypt is left out. Hashing and checking are uninterpreted functions. Their round trip is assumed only where a lemma asks for `Sound`.
- Pydantic's request decoding and FastAPI's 422 responses are left out. Server requests arrive already decoded.
- React rendering, SWR fetching, `async`/`await`, the loading flags, the presentational components and the slider ranges are left out. They are presentation, not logic.
- The phone-detail fetch (components/phonepro-app.tsx:350-355) is left out, including its `encodeURIComponent` path encoding. It is a data-fetching key, not a rule.
- The options-loading and detail error banners are left out, and so is the rendering of a recommendation result (suggested model, details table, raw JSON). They are rendering.
- Text.Lower: only ASCII letters are lowered. JavaScript's `toLowerCase` uses the full Unicode case mapping.
- Text.Trim: strings are sequences of Unicode scalar values, not UTF-16 code units. This does not change `trim`, `includes` or equality, but lengths differ for characters outside the Basic Multilingual Plane.
- Json.Json: numbers are integers. The `/phone` record and the recommendation details are whole dataset rows that pass through as opaque `Json`, and nothing modelled depends on their numbers. The 2^53 precision limit of JavaScript numbers is not modelled.
- Json.Stringify: an object is printed with its members as the value holds them, duplicates and order included. `JSON.stringify` of a parsed object prints each key once (the last value) and puts integer-like keys first. Only the first character and non-emptiness of the text are relied on, and those agree.
- AuthView.CheckSignup: the e-mail field is an `<input type="email">` inside a form without `noValidate` (components/phonepro-app.tsx:207-212, 227). The browser strips white space from both ends of its value and refuses to submit a non-empty value that is not a valid address, so `handleSignup` never runs for such a value. That browser check runs before `handleSignup` and is not modelled: the model's e-mail is the value `handleSignup` reads, and an invalid address such as "abc" is sent, as the code itself would send it.
- Server.Handle: requests are modelled as handled one at a time. FastAPI runs `signup` and `login` on a thread pool, and the unlocked read and write of `users.json` (backend/main.py:105 and 115) can lose an account when two sign-ups overlap; that interleaving is not modelled.
- Sorting.Unique: the contract does not state that first appearances keep their order, because the list is sorted right after and the order cannot show.
- Catalog.FirstMatch: a dataset row's `model` is a string. pandas' handling of missing values (NaN never compares equal) is not modelled.
- The Selenium tests and the console logger are left out. The authentication test serves only as the source of `Flows.SignupLoginLogoutFlow`.

=== FILE: app_view.dfy ===
/**
  The application view: the lists taken from `/options`, the model filter,
  the defaults filled into the form, the recommendation request body and how
  the reply to it becomes the result and message shown.
 */
module ApplicationView {
  import opened Wrappers
  import opened Json
  import opened Text
  import opened Http
  import opened Catalog
  import opened AuthView
  import Server

  /** The four lists; each is empty until `/options` has loaded. */
  function Lists(options: Option<FormOptions>): (r: FormOptions)
    ensures options.Some? ==> r == options.value
    ensures options.None? ==> r == FormOptions([], [], [], [])
  {
    options.GetOr(FormOptions([], [], [], []))
  }

  // ---- The model filter ----

  /** A model passes the (trimmed, lowered) filter `f` when its lower-case name contains `f`. */
  predicate Matches(model: string, f: string) {
    Includes(Lower(model), f)
  }

  /** `xs` is `ys` with some elements left out, the rest kept in order. */
  ghost predicate IsSubsequence(xs: seq<string>, ys: seq<string>)
    decreases |ys|
  {
    if xs == [] then true
    else if ys == [] then false
    else (xs[0] == ys[0] && IsSubsequence(xs[1..], ys[1..])) || IsSubsequence(xs, ys[1..])
  }

  /**
    `models.filter(m => m.toLowerCase().includes(f))`: keeps, in order, the
    models that match, each as often as it occurs, and nothing else.
   */
  function KeepMatching(models: seq<string>, f: string): (r: seq<string>)
    ensures IsSubsequence(r, models)
    ensures forall i :: 0 <= i < |r| ==> Matches(r[i], f)
    ensures forall m :: multiset(r)[m] == if Matches(m, f) then multiset(models)[m] else 0
  {
    if models == [] then []
    else
      var rest := KeepMatching(models[1..], f);
      assert models == [models[0]] + models[1..];
      if Matches(models[0], f) then [models[0]] + rest
      else
        assert rest == [] || IsSubsequence(rest, models[1..]);
        rest
  }

  /** The trimmed, lower-cased filter text; `!f` holds exactly when it is empty. */
  function Needle(filter: string): (r: string)
    ensures r == [] <==> AllSpace(filter)
    ensures |r| == |Trim(filter)|
  {
    Lower(Trim(filter))
  }

  /**
    `filteredModels`: with an empty or all-white-space filter the list as it
    is; otherwise the models whose lower-case name contains the trimmed,
    lower-cased filter.
   */
  function FilterModels(models: seq<string>, filter: string): (r: seq<string>)
    ensures AllSpace(filter) ==> r == models
    ensures IsSubsequence(r, models)
    ensures !AllSpace(filter) ==> forall i :: 0 <= i < |r| ==> Matches(r[i], Needle(filter))
    ensures !AllSpace(filter) ==>
              forall m :: multiset(r)[m] == if Matches(m, Needle(filter)) then multiset(models)[m] else 0
  {
    var f := Needle(filter);
    if f == [] then
      SubsequenceReflexive(models);
      models
    else KeepMatching(models, f)
  }

  lemma {:induction false} SubsequenceReflexive(xs: seq<string>)
    ensures IsSubsequence(xs, xs)
  {
    if xs != [] {
      SubsequenceReflexive(xs[1..]);
    }
  }

  /**
    With a non-blank filter, a model is kept exactly when the filter text
    occurs in its lower-case name: every kept model matches, and no matching
    model is dropped.
   */
  lemma FilterKeepsExactlyMatches(models: seq<string>, filter: string, m: string)
    requires !AllSpace(filter)
    ensures m in FilterModels(models, filter) <==> m in models && Occurs(Lower(m), Needle(filter))
  {
    var f := Needle(filter);
    var r := FilterModels(models, filter);
    IncludesIffOccurs(Lower(m), f);
    assert m in r <==> multiset(r)[m] > 0;
    assert m in models <==> multiset(models)[m] > 0;
  }

  lemma ExampleNeedle()
    ensures Needle(" PIX ") == "pix"
  {
    var s := " PIX ";
    assert LeadingSpaces(s) == 1 by { assert IsSpace(s[0]) && !IsSpace(s[1]); }
    assert TrailingStart(s) == 4 by { assert IsSpace(s[4]) && !IsSpace(s[3]); }
    var t := Trim(s);
    assert t == s[1..4];
    assert t == "PIX";
    var l := Lower(t);
    assert l[0] == 'p' && l[1] == 'i' && l[2] == 'x';
  }

  lemma ExampleMatches()
    ensures Matches("Pixel 7", "pix") && Matches("Pixel 6a", "pix")
  {
  }

  lemma ExampleNoMatch()
    ensures !Matches("Galaxy S21", "pix")
  {
    var hay := Lower("Galaxy S21");
    assert forall k :: 0 <= k < |hay| ==> hay[k] != 'p';
    IncludesIffOccurs(hay, "pix");
    forall i | 0 <= i <= |hay| - 3 ensures !OccursAt(hay, "pix", i) {
      assert hay[i..i + 3][0] == hay[i];
    }
  }
  /** "pix" (here padded and in capitals) over three models keeps the two Pixels, in order. */
  lemma FilterExample()
    ensures FilterModels(["Pixel 7", "Galaxy S21", "Pixel 6a"], " PIX ") == ["Pixel 7", "Pixel 6a"]
  {
    ExampleNeedle();
    ExampleMatches();
    ExampleNoMatch();
    var ms := ["Pixel 7", "Galaxy S21", "Pixel 6a"];
    assert ms[1..][1..] == ["Pixel 6a"];
    assert ms[1..][1..][1..] == [];
    assert KeepMatching(ms[1..][1..], "pix") == ["Pixel 6a"];
    assert KeepMatching(ms[1..], "pix") == ["Pixel 6a"];
  }

  // ---- Defaults ----

  /** The four form values that are defaulted from the lists. */
  datatype Selection = Selection(brand: string, processor: string, os: string, model: string)

  /** `if (list.length && !value) value = list[0]`. */
  function FillDefault(value: string, list: seq<string>): (r: string)
    ensures value != "" ==> r == value
    ensures value == "" && list != [] ==> r == list[0]
    ensures value == "" && list == [] ==> r == ""
  {
    if list != [] && value == "" then list[0] else value
  }

  /** The defaulting effect: each still-empty value takes the first entry of its list. */
  function ApplyDefaults(sel: Selection, lists: FormOptions): (r: Selection)
    ensures sel.brand != "" ==> r.brand == sel.brand
    ensures sel.brand == "" && lists.brandNames != [] ==> r.brand == lists.brandNames[0]
    ensures sel.brand == "" && lists.brandNames == [] ==> r.brand == ""
    ensures sel.processor != "" ==> r.processor == sel.processor
    ensures sel.processor == "" && lists.processorBrands != [] ==> r.processor == lists.processorBrands[0]
    ensures sel.processor == "" && lists.processorBrands == [] ==> r.processor == ""
    ensures sel.os != "" ==> r.os == sel.os
    ensures sel.os == "" && lists.operatingSystems != [] ==> r.os == lists.operatingSystems[0]
    ensures sel.os == "" && lists.operatingSystems == [] ==> r.os == ""
    ensures sel.model != "" ==> r.model == sel.model
    ensures sel.model == "" && lists.phoneModels != [] ==> r.model == lists.phoneModels[0]
    ensures sel.model == "" && lists.phoneModels == [] ==> r.model == ""
  {
    Selection(
      FillDefault(sel.brand, lists.brandNames),
      FillDefault(sel.processor, lists.processorBrands),
      FillDefault(sel.os, lists.operatingSystems),
      FillDefault(sel.model, lists.phoneModels))
  }

  /**
    The effect re-runs whenever its inputs change, its own updates included;
    a second run changes nothing, so it settles after one.
   */
  lemma DefaultsIdempotent(sel: Selection, lists: FormOptions)
    ensures ApplyDefaults(ApplyDefaults(sel, lists), lists) == ApplyDefaults(sel, lists)
  {
  }

  /** A value the user has chosen is never overwritten, and nothing changes while the lists are not loaded. */
  lemma DefaultsKeepChoices(sel: Selection, lists: FormOptions)
    ensures var r := ApplyDefaults(sel, lists);
            && (sel.brand != "" ==> r.brand == sel.brand)
            && (sel.processor != "" ==> r.processor == sel.processor)
            && (sel.os != "" ==> r.os == sel.os)
            && (sel.model != "" ==> r.model == sel.model)
    ensures var r := ApplyDefaults(sel, Lists(None));
            r == sel
  {
  }

  // ---- The recommendation request ----

  datatype YesNo = Yes | No

  /** The recommendation controls. */
  datatype RecommendForm = RecommendForm(
    price: int, brand: string, support5g: YesNo, processor: string,
    rearCam: int, charging: int, battery: int, ram: int, storage: int,
    refresh: int, os: string)

  /** The members of the recommendation body, in the order the request writes them. */
  function PayloadMembers(f: RecommendForm): (ms: seq<(string, Json)>)
    ensures |ms| == |Server.RecommendFields|
    ensures forall i :: 0 <= i < |ms| ==>
              ms[i].0 == Server.RecommendFields[i].0 && Server.HasKind(ms[i].1, Server.RecommendFields[i].1)
  {
    [
      ("price", JNum(f.price)),
      ("brand_name", JStr(f.brand)),
      ("5G_or_not", JBool(f.support5g == Yes)),
      ("processor_brand", JStr(f.processor)),
      ("primary_camera_rear", JNum(f.rearCam)),
      ("fast_charging", JNum(f.charging)),
      ("battery_capacity", JNum(f.battery)),
      ("ram_capacity", JNum(f.ram)),
      ("internal_memory", JNum(f.storage)),
      ("refresh_rate", JNum(f.refresh)),
      ("os", JStr(f.os))
    ]
  }

  /** The body's keys are distinct, so looking a member's key up finds that member. */
  lemma PayloadLookup(f: RecommendForm, i: int)
    requires 0 <= i < |Server.RecommendFields|
    ensures Get(JObj(PayloadMembers(f)), PayloadMembers(f)[i].0) == Some(PayloadMembers(f)[i].1)
  {
    var ms := PayloadMembers(f);
    assert forall a, b :: 0 <= a < b < |ms| ==> ms[a].0 != ms[b].0;
    FindDistinct(ms, i);
  }

  /**
    The body `handleRecommend` posts: one member per field of the backend's
    recommendation input, in its order and under its name, each with the JSON
    type the field needs, and each holding the value of its own control.
   */
  function Payload(f: RecommendForm): (r: Json)
    ensures r.JObj? && |r.members| == |Server.RecommendFields|
    ensures forall i :: 0 <= i < |r.members| ==>
              r.members[i].0 == Server.RecommendFields[i].0 && Server.HasKind(r.members[i].1, Server.RecommendFields[i].1)
    ensures Get(r, "price") == Some(JNum(f.price))
    ensures Get(r, "brand_name") == Some(JStr(f.brand))
    ensures Get(r, "5G_or_not") == Some(JBool(f.support5g == Yes))
    ensures Get(r, "processor_brand") == Some(JStr(f.processor))
    ensures Get(r, "primary_camera_rear") == Some(JNum(f.rearCam))
    ensures Get(r, "fast_charging") == Some(JNum(f.charging))
    ensures Get(r, "battery_capacity") == Some(JNum(f.battery))
    ensures Get(r, "ram_capacity") == Some(JNum(f.ram))
    ensures Get(r, "internal_memory") == Some(JNum(f.storage))
    ensures Get(r, "refresh_rate") == Some(JNum(f.refresh))
    ensures Get(r, "os") == Some(JStr(f.os))
  {
    PayloadLookup(f, 0);
    PayloadLookup(f, 1);
    PayloadLookup(f, 2);
    PayloadLookup(f, 3);
    PayloadLookup(f, 4);
    PayloadLookup(f, 5);
    PayloadLookup(f, 6);
    PayloadLookup(f, 7);
    PayloadLookup(f, 8);
    PayloadLookup(f, 9);
    PayloadLookup(f, 10);
    JObj(PayloadMembers(f))
  }

  // ---- The recommendation reply ----

  const RecommendFailedText := "Recommendation failed."
  const InvalidInputPrefix := "Invalid input. "
  const RecommendErrorText := "Recommendation error."
  const RecommendDoneText := "Recommendation generated."

  /**
    The error text for a non-2xx reply: a truthy non-string detail (a
    validation error list) is stringified after a prefix, a non-empty string
    detail is shown as it is, and anything else gets the generic text.
   */
  function RecommendFailure(data: Json): (r: string)
    ensures r != ""
    ensures var d := Get(data, "detail");
            d.Some? && Truthy(d.value) && !d.value.JStr? ==> r == InvalidInputPrefix + Stringify(d.value)
    ensures var d := Get(data, "detail");
            d.Some? && d.value.JStr? && d.value.s != "" ==> r == d.value.s
    ensures var d := Get(data, "detail");
            !(d.Some? && Truthy(d.value)) ==> r == RecommendFailedText
  {
    var d := Get(data, "detail");
    if d.Some? && Truthy(d.value) && !d.value.JStr? then InvalidInputPrefix + Stringify(d.value)
    else if d.Some? && Truthy(d.value) then d.value.s
    else RecommendFailedText
  }

  /** The recommendation message and result `handleRecommend` leaves. */
  datatype RecommendState = RecommendState(message: Message, result: Option<Json>)

  /**
    `handleRecommend` after the request: a 2xx reply stores its body as the
    result with a success message; a failure or a thrown error leaves no
    result and an error message whose text is always a string.
   */
  function HandleRecommend(reply: Reply): (r: RecommendState)
    ensures r.result.Some? <==> reply.Answered? && IsOk(reply.status)
    ensures r.result.Some? ==> r.result.value == BodyOrEmpty(reply.body) && r.message == Message(SuccessKind, JStr(RecommendDoneText))
    ensures r.result.None? ==> r.message.kind == ErrorKind && r.message.text.JStr? && r.message.text.s != ""
    ensures reply.Answered? && !IsOk(reply.status) ==> r.message.text == JStr(RecommendFailure(BodyOrEmpty(reply.body)))
    ensures reply.Thrown? ==> r.message.text == JStr(ThrownText(reply.message, RecommendErrorText))
  {
    match reply
    case Thrown(m) => RecommendState(Message(ErrorKind, JStr(ThrownText(m, RecommendErrorText))), None)
    case Answered(status, body) =>
      var data := BodyOrEmpty(body);
      if !IsOk(status) then RecommendState(Message(ErrorKind, JStr(RecommendFailure(data))), None)
      else RecommendState(Message(SuccessKind, JStr(RecommendDoneText)), Some(data))
  }
}

=== FILE: auth_view.dfy ===
/**
  The authentication view: the login and sign-up forms, the checks sign-up
  makes before sending anything, and how each reply becomes the message
  shown, the active tab and, on login, the session.
 */
module AuthView {
  import opened Wrappers
  import opened Json
  import opened Http
  import opened Session
  import Server

  datatype Tab = LoginTab | SignupTab

  /** The `type` of a message. */
  datatype Kind = SuccessKind | ErrorKind | InfoKind

  /**
    The message area's content. The text is whatever value the handler
    assigned; a server `detail` is shown as it came, so it need not be a string.
   */
  datatype Message = Message(kind: Kind, text: Json)

  /** The view's own state that outlives a submission. */
  datatype AuthState = AuthState(tab: Tab, message: Option<Message>)

  /** The four sign-up inputs. */
  datatype SignupForm = SignupForm(username: string, email: string, password: string, confirm: string)

  const FillAllText := "Please fill in all sign up fields."
  const MismatchText := "Passwords do not match."
  const SignupFailedText := "Sign up failed."
  const SignupDoneText := "Sign up successful. You can now log in."
  const SignupErrorText := "Sign up error."
  const LoginFailedText := "Login failed."
  const LoginErrorText := "Login error."

  predicate AnyEmpty(f: SignupForm) {
    f.username == "" || f.email == "" || f.password == "" || f.confirm == ""
  }

  /** Either the message that stops a sign-up before any request, or the request to send. */
  datatype Check = Blocked(text: string) | Send(request: Server.Request)

  /**
    The checks `handleSignup` makes before the request: an empty field first,
    then a password that differs from its confirmation. Only a form passing
    both is sent, and it is sent as typed, without the confirmation.
   */
  function CheckSignup(f: SignupForm): (r: Check)
    ensures r.Blocked? <==> AnyEmpty(f) || f.password != f.confirm
    ensures AnyEmpty(f) ==> r == Blocked(FillAllText)
    ensures !AnyEmpty(f) && f.password != f.confirm ==> r == Blocked(MismatchText)
    ensures r.Send? ==> r.request == Server.SignupRequest(f.username, f.email, f.password)
  {
    if AnyEmpty(f) then Blocked(FillAllText)
    else if f.password != f.confirm then Blocked(MismatchText)
    else Send(Server.SignupRequest(f.username, f.email, f.password))
  }

  /**
    `data?.detail || JSON.stringify(data) || fallback`: a truthy detail as it
    is, otherwise the body's JSON text. That text is never empty, so the
    fallback is never reached.
   */
  function FailureText(data: Json, fallback: string): (r: Json)
    ensures var d := Get(data, "detail"); d.Some? && Truthy(d.value) ==> r == d.value
    ensures var d := Get(data, "detail"); !(d.Some? && Truthy(d.value)) ==> r == JStr(Stringify(data))
  {
    var d := Get(data, "detail");
    if d.Some? && Truthy(d.value) then d.value
    else
      var t := Stringify(data);
      if t != "" then JStr(t) else JStr(fallback)
  }

  /**
    A fallback starting with a capital letter, as both fallbacks do, is shown
    only when the server's detail is that very text: the body's JSON text
    starts with a quote, a bracket, a brace, a digit, a minus or a lower-case
    keyword letter.
   */
  lemma FallbackNeverShown(data: Json, fallback: string)
    requires fallback != "" && 'A' <= fallback[0] <= 'Z'
    ensures FailureText(data, fallback) == JStr(fallback) ==> Get(data, "detail") == Some(JStr(fallback))
  {
  }

  /** `data?.message || fallback`. */
  function SuccessText(data: Json, fallback: string): (r: Json)
    requires fallback != ""
    ensures Truthy(r)
    ensures var m := Get(data, "message"); m.Some? && Truthy(m.value) ==> r == m.value
    ensures var m := Get(data, "message"); !(m.Some? && Truthy(m.value)) ==> r == JStr(fallback)
  {
    var m := Get(data, "message");
    if m.Some? && Truthy(m.value) then m.value else JStr(fallback)
  }

  /** `e?.message || fallback` for a thrown error. */
  function ThrownText(message: string, fallback: string): (r: string)
    requires fallback != ""
    ensures r != ""
    ensures message != "" ==> r == message
    ensures message == "" ==> r == fallback
  {
    if message != "" then message else fallback
  }

  /** What a sign-up submission leaves behind: the view state and the request it sent, if any. */
  datatype SignupEffect = SignupEffect(state: AuthState, sent: Option<Server.Request>)

  /**
    `handleSignup`. A blocked form sends nothing and shows the check's error.
    A sent form shows the server's error on failure, or switches to the login
    tab with the server's message on success. Only success changes the tab,
    and a message is always shown.
   */
  function HandleSignup(st: AuthState, f: SignupForm, reply: Reply): (r: SignupEffect)
    ensures r.sent.None? <==> CheckSignup(f).Blocked?
    ensures r.sent.Some? ==> r.sent.value == Server.SignupRequest(f.username, f.email, f.password)
    ensures CheckSignup(f).Blocked? ==> r.state == st.(message := Some(Message(ErrorKind, JStr(CheckSignup(f).text))))
    ensures r.state.message.Some?
    ensures r.state.message.value.kind == SuccessKind <==> r.sent.Some? && reply.Answered? && IsOk(reply.status)
    ensures r.state.tab == (if r.state.message.value.kind == SuccessKind then LoginTab else st.tab)
    ensures r.sent.Some? && reply.Answered? && !IsOk(reply.status) ==>
              r.state.message.value == Message(ErrorKind, FailureText(BodyOrEmpty(reply.body), SignupFailedText))
    ensures r.sent.Some? && reply.Answered? && IsOk(reply.status) ==>
              r.state.message.value.text == SuccessText(BodyOrEmpty(reply.body), SignupDoneText)
    ensures r.sent.Some? && reply.Thrown? ==>
              r.state.message.value == Message(ErrorKind, JStr(ThrownText(reply.message, SignupErrorText)))
  {
    match CheckSignup(f)
    case Blocked(text) => SignupEffect(st.(message := Some(Message(ErrorKind, JStr(text)))), None)
    case Send(req) =>
      var st' :=
        match reply
        case Thrown(m) => st.(message := Some(Message(ErrorKind, JStr(ThrownText(m, SignupErrorText)))))
        case Answered(status, body) =>
          var data := BodyOrEmpty(body);
          if !IsOk(status) then st.(message := Some(Message(ErrorKind, FailureText(data, SignupFailedText))))
          else AuthState(LoginTab, Some(Message(SuccessKind, SuccessText(data, SignupDoneText))));
      SignupEffect(st', Some(req))
  }

  /** What a login submission leaves behind: the view state, the session and the request sent. */
  datatype LoginEffect = LoginEffect(state: AuthState, session: Session, sent: Server.Request)

  /**
    `handleLogin`. The request is always sent, without any check of the
    inputs. On a 2xx reply the name is stored and becomes the identity and
    no message is left; otherwise the session is untouched and an error is
    shown. The tab never changes.
   */
  function HandleLogin(st: AuthState, s: Session, username: string, password: string, reply: Reply): (r: LoginEffect)
    ensures r.sent == Server.LoginRequest(username, password)
    ensures r.state.tab == st.tab
    ensures reply.Answered? && IsOk(reply.status) ==> r.session == Authed(s, username) && r.state.message == None
    ensures !(reply.Answered? && IsOk(reply.status)) ==>
              r.session == s && r.state.message.Some? && r.state.message.value.kind == ErrorKind
    ensures reply.Answered? && !IsOk(reply.status) ==>
              r.state.message.value.text == FailureText(BodyOrEmpty(reply.body), LoginFailedText)
    ensures reply.Thrown? ==> r.state.message.value.text == JStr(ThrownText(reply.message, LoginErrorText))
  {
    var sent := Server.LoginRequest(username, password);
    match reply
    case Thrown(m) =>
      LoginEffect(st.(message := Some(Message(ErrorKind, JStr(ThrownText(m, LoginErrorText))))), s, sent)
    case Answered(status, body) =>
      if !IsOk(status) then
        LoginEffect(st.(message := Some(Message(ErrorKind, FailureText(BodyOrEmpty(body), LoginFailedText)))), s, sent)
      else
        LoginEffect(st.(message := None), Authed(s, username), sent)
  }
}

=== FILE: catalog.dfy ===
/**
  The read-only catalogue endpoints of the backend: `/options`, built from
  the label encoders' classes and the model column of the dataset, and
  `/phone/{model_name}`, a lookup in that dataset.
 */
module Catalog {
  import opened Wrappers
  import opened Json
  import opened Sorting
  import opened Http

  /** The classes the pickled label encoders know for the three categorical columns. */
  datatype Encoders = Encoders(brandNames: seq<string>, processorBrands: seq<string>, operatingSystems: seq<string>)

  /** A row of the original dataset: its `model` value and the whole row as a record (`to_dict()`). */
  datatype Row = Row(model: string, record: Json)

  /** The four lists `/options` returns. */
  datatype FormOptions = FormOptions(
    brandNames: seq<string>,
    processorBrands: seq<string>,
    operatingSystems: seq<string>,
    phoneModels: seq<string>)

  /** The `model` column. */
  function Models(table: seq<Row>): (r: seq<string>)
    ensures |r| == |table|
    ensures forall i :: 0 <= i < |table| ==> r[i] == table[i].model
  {
    seq(|table|, i requires 0 <= i < |table| => table[i].model)
  }

  /**
    `GET /options`: each encoder's classes sorted, and the distinct model
    names of the dataset sorted. Each list is sorted and holds exactly the
    values of its source.
   */
  function GetFormOptions(enc: Encoders, table: seq<Row>): (r: FormOptions)
    ensures Sorted(r.brandNames) && multiset(r.brandNames) == multiset(enc.brandNames)
    ensures Sorted(r.processorBrands) && multiset(r.processorBrands) == multiset(enc.processorBrands)
    ensures Sorted(r.operatingSystems) && multiset(r.operatingSystems) == multiset(enc.operatingSystems)
    ensures Sorted(r.phoneModels) && Distinct(r.phoneModels)
    ensures forall m :: m in r.phoneModels <==> m in Models(table)
  {
    var models := Unique(Models(table));
    SortDistinct(models);
    var sortedModels := Sort(models);
    assert forall m :: m in sortedModels <==> m in multiset(models);
    FormOptions(Sort(enc.brandNames), Sort(enc.processorBrands), Sort(enc.operatingSystems), sortedModels)
  }

  /**
    A fitted label encoder keeps its classes sorted (they come from
    `numpy.unique`), so `sorted` in `/options` returns them unchanged.
   */
  lemma SortedClassesUnchanged(enc: Encoders, table: seq<Row>)
    requires Sorted(enc.brandNames) && Sorted(enc.processorBrands) && Sorted(enc.operatingSystems)
    ensures var r := GetFormOptions(enc, table);
            && r.brandNames == enc.brandNames
            && r.processorBrands == enc.processorBrands
            && r.operatingSystems == enc.operatingSystems
  {
    SortSorted(enc.brandNames);
    SortSorted(enc.processorBrands);
    SortSorted(enc.operatingSystems);
  }

  /** The `/options` response body: each list under its key, as an array of strings. */
  function OptionsBody(o: FormOptions): (r: Json)
    ensures Get(r, "brand_names") == Some(Strings(o.brandNames))
    ensures Get(r, "processor_brands") == Some(Strings(o.processorBrands))
    ensures Get(r, "operating_systems") == Some(Strings(o.operatingSystems))
    ensures Get(r, "phone_models") == Some(Strings(o.phoneModels))
  {
    var ms := [
      ("brand_names", Strings(o.brandNames)),
      ("processor_brands", Strings(o.processorBrands)),
      ("operating_systems", Strings(o.operatingSystems)),
      ("phone_models", Strings(o.phoneModels))];
    assert forall a, b :: 0 <= a < b < |ms| ==> ms[a].0 != ms[b].0 by {
      assert |ms[0].0| == 11 && |ms[1].0| == 16 && |ms[2].0| == 17 && |ms[3].0| == 12;
    }
    FindDistinct(ms, 0);
    FindDistinct(ms, 1);
    FindDistinct(ms, 2);
    FindDistinct(ms, 3);
    JObj(ms)
  }

  /** A list of strings as a JSON array, element by element. */
  function Strings(xs: seq<string>): (r: Json)
    ensures r.JArr? && |r.items| == |xs|
    ensures forall i :: 0 <= i < |xs| ==> r.items[i] == JStr(xs[i])
  {
    JArr(seq(|xs|, i requires 0 <= i < |xs| => JStr(xs[i])))
  }

  /** The position of the first row whose model is `name`, if any. */
  function FirstMatch(table: seq<Row>, name: string): (r: Option<nat>)
    ensures r.Some? ==> r.value < |table| && table[r.value].model == name
    ensures r.Some? ==> forall j :: 0 <= j < r.value ==> table[j].model != name
    ensures r.None? <==> forall j :: 0 <= j < |table| ==> table[j].model != name
  {
    if table == [] then None
    else if table[0].model == name then Some(0)
    else
      match FirstMatch(table[1..], name)
      case None => None
      case Some(k) => Some(k + 1)
  }

  const PhoneNotFoundDetail := "Phone model not found"

  /**
    `GET /phone/{model_name}`: the record of the first row whose model is
    exactly `name`, or 404 when no row has that model.
   */
  function GetPhoneDetails(table: seq<Row>, name: string): (r: Response)
    ensures r.status == 404 <==> forall j :: 0 <= j < |table| ==> table[j].model != name
    ensures r.status == 404 ==> r == Error(404, PhoneNotFoundDetail)
    ensures r.status != 404 ==>
              && r.status == 200
              && exists i :: 0 <= i < |table| && table[i].model == name && r.body == table[i].record
                             && forall j :: 0 <= j < i ==> table[j].model != name
  {
    match FirstMatch(table, name)
    case None => Error(404, PhoneNotFoundDetail)
    case Some(i) => Response(200, table[i].record)
  }
}

=== FILE: flows.dfy ===
/**
  The client and the server together: the requests the views send, answered
  by the server model, and what the views make of the answers.
 */
module Flows {
  import opened Wrappers
  import opened Json
  import opened Http
  import opened Registry
  import opened Session
  import opened AuthView
  import opened ApplicationView
  import Server

  /** A sign-up form the client sends, for a name the registry does not hold yet. */
  ghost predicate FreshSignup(s: Server.State, f: SignupForm) {
    CheckSignup(f).Send? && f.username !in s.users
  }

  /**
    A fresh sign-up is stored by the server, and the client switches to the
    login tab showing the server's message.
   */
  lemma SignupFlow(s: Server.State, st: AuthState, f: SignupForm, h: Hasher, salt: string)
    requires FreshSignup(s, f)
    ensures var req := CheckSignup(f).request;
            var (s', resp) := Server.Handle(s, req, h, salt);
            var eff := HandleSignup(st, f, Deliver(resp));
            && f.username in s'.users
            && eff.sent == Some(req)
            && eff.state == AuthState(LoginTab, Some(Message(SuccessKind, JStr(CreatedMessage))))
  {
  }

  /**
    Signing up under a taken name leaves the registry as it was, and the
    client stays on its tab showing the server's detail.
   */
  lemma DuplicateSignupFlow(s: Server.State, st: AuthState, f: SignupForm, h: Hasher, salt: string)
    requires CheckSignup(f).Send? && f.username in s.users
    ensures var req := CheckSignup(f).request;
            var (s', resp) := Server.Handle(s, req, h, salt);
            var eff := HandleSignup(st, f, Deliver(resp));
            && s' == s
            && eff.state == st.(message := Some(Message(ErrorKind, JStr(DuplicateDetail))))
  {
  }

  /**
    The journey of the authentication test: sign up, log in with the same
    password, log out. After login the user is signed in and stored, and a
    reload keeps them signed in; after logout they are signed out, the key
    is gone, and a reload keeps them signed out.
   */
  lemma SignupLoginLogoutFlow(
    s: Server.State, st: AuthState, session: Session, f: SignupForm, h: Hasher, salt: string)
    requires Sound(h)
    requires FreshSignup(s, f)
    ensures var s1 := Server.Handle(s, CheckSignup(f).request, h, salt).0;
            var login := HandleLogin(st, session, f.username, f.password,
                                     Deliver(Server.Handle(s1, Server.LoginRequest(f.username, f.password), h, salt).1));
            var out := Logout(login.session);
            && SignedIn(login.session) == Some(f.username)
            && Stored(login.session.storage) == Some(f.username)
            && SignedIn(Startup(login.session.storage)) == Some(f.username)
            && SignedIn(out) == None
            && Stored(out.storage) == None
            && SignedIn(Startup(out.storage)) == None
  {
  }

  /**
    The body the client posts has every field `RecommendationInput` requires,
    under the same names and with the JSON type each field needs.
   */
  lemma PayloadAccepted(f: RecommendForm)
    ensures Server.AcceptsRecommendInput(Payload(f))
  {
    forall i | 0 <= i < |Server.RecommendFields|
      ensures Get(Payload(f), Server.RecommendFields[i].0) == Some(PayloadMembers(f)[i].1)
    {
      PayloadLookup(f, i);
    }
  }
}

=== FILE: http.dfy ===
/** HTTP responses as the FastAPI server sends them and as the browser's `fetch` hands them over. */
module Http {
  import opened Wrappers
  import opened Json

  /** A response: status code and JSON body. */
  datatype Response = Response(status: int, body: Json)

  /** `raise HTTPException(status_code=status, detail=detail)`: FastAPI answers `{"detail": detail}`. */
  function Error(status: int, detail: string): (r: Response)
    ensures r.status == status
    ensures Get(r.body, "detail") == Some(JStr(detail))
  {
    Response(status, JObj([("detail", JStr(detail))]))
  }

  /** `res.ok`: a 2xx status. */
  predicate IsOk(status: int) {
    200 <= status <= 299
  }

  /**
    What a `fetch` call yields to the client code: a status with a body that
    parsed as JSON (`None` when it did not), or a thrown error with its message.
   */
  datatype Reply = Answered(status: int, body: Option<Json>) | Thrown(message: string)

  /** `await res.json().catch(() => ({}))`: an unparsable body reads as the empty object. */
  function BodyOrEmpty(body: Option<Json>): (r: Json)
    ensures body.Some? ==> r == body.value
    ensures body.None? ==> r == JObj([])
  {
    body.GetOr(JObj([]))
  }

  /** A server response as it reaches the browser. */
  function Deliver(r: Response): Reply {
    Answered(r.status, Some(r.body))
  }
}

=== FILE: json.dfy ===
/**
  JSON values as the browser's `JSON.parse` hands them to the client code,
  JavaScript truthiness of such values, property reads and `JSON.stringify`.
  Numbers are integers. The `/phone` record and the recommendation details
  are whole dataset rows that pass through as opaque values; nothing here
  depends on their numbers.
 */
module Json {
  import opened Wrappers

  datatype Json =
    | JNull
    | JBool(b: bool)
    | JNum(n: int)
    | JStr(s: string)
    | JArr(items: seq<Json>)
    | JObj(members: seq<(string, Json)>)

  /** JavaScript truthiness: `null`, `false`, `0` and `""` are falsy, everything else is truthy. */
  predicate Truthy(j: Json)
    ensures j.JStr? ==> (Truthy(j) <==> j.s != "")
    ensures j.JNum? ==> (Truthy(j) <==> j.n != 0)
    ensures j.JBool? ==> (Truthy(j) <==> j.b)
    ensures j.JArr? || j.JObj? ==> Truthy(j)
    ensures Truthy(j) ==> !j.JNull? && j != JBool(false)
  {
    match j
    case JNull => false
    case JBool(b) => b
    case JNum(n) => n != 0
    case JStr(s) => s != ""
    case JArr(_) => true
    case JObj(_) => true
  }

  /** Member `i` has `key` and `value`, and no later member has `key`. */
  ghost predicate LastWith(ms: seq<(string, Json)>, key: string, value: Json, i: int) {
    0 <= i < |ms| && ms[i] == (key, value) && forall j :: i < j < |ms| ==> ms[j].0 != key
  }

  /** Looks `key` up among object members; the last member with that key wins, as in `JSON.parse`. */
  function Find(ms: seq<(string, Json)>, key: string): (r: Option<Json>)
    ensures r.Some? ==> exists i :: LastWith(ms, key, r.value, i)
    ensures r.None? ==> forall i :: 0 <= i < |ms| ==> ms[i].0 != key
  {
    if ms == [] then None
    else if ms[|ms| - 1].0 == key then
      assert LastWith(ms, key, ms[|ms| - 1].1, |ms| - 1);
      Some(ms[|ms| - 1].1)
    else
      var r := Find(ms[..|ms| - 1], key);
      assert r.Some? ==> exists i :: LastWith(ms, key, r.value, i) by {
        if r.Some? {
          var i :| LastWith(ms[..|ms| - 1], key, r.value, i);
          assert LastWith(ms, key, r.value, i);
        }
      }
      r
  }

  /** With distinct keys, looking a member's key up finds that member. */
  lemma FindDistinct(ms: seq<(string, Json)>, i: int)
    requires forall a, b :: 0 <= a < b < |ms| ==> ms[a].0 != ms[b].0
    requires 0 <= i < |ms|
    ensures Find(ms, ms[i].0) == Some(ms[i].1)
  {
  }

  /** `v?.key`: a property of an object, the last member with that key; arrays, strings, numbers, booleans and `null` have none. */
  function Get(j: Json, key: string): (r: Option<Json>)
    ensures !j.JObj? ==> r.None?
    ensures r.Some? ==> exists i :: LastWith(j.members, key, r.value, i)
    ensures j.JObj? && r.None? ==> forall i :: 0 <= i < |j.members| ==> j.members[i].0 != key
  {
    if j.JObj? then Find(j.members, key) else None
  }

  /** Decimal digits of a natural number, without leading zeros. */
  function NatDigits(n: nat): (r: string)
    ensures |r| > 0
    ensures forall i :: 0 <= i < |r| ==> '0' <= r[i] <= '9'
    ensures n > 0 ==> r[0] != '0'
  {
    var d := ['0' + (n % 10) as char];
    if n < 10 then d else NatDigits(n / 10) + d
  }

  /** `String(n)` for an integer. */
  function IntText(n: int): (r: string)
    ensures |r| > 0
    ensures r[0] == '-' <==> n < 0
    ensures n >= 0 ==> '0' <= r[0] <= '9'
  {
    if n < 0 then "-" + NatDigits(-n) else NatDigits(n)
  }

  /** One hexadecimal digit in lower case, as `JSON.stringify` writes `\u00xx` escapes. */
  function HexDigit(d: nat): char
    requires d < 16
  {
    if d < 10 then '0' + d as char else 'a' + (d - 10) as char
  }

  /** A string character as it appears between the quotes of `JSON.stringify`'s output. */
  function EscapeChar(c: char): (r: string)
    ensures |r| >= 1
    ensures c != '"' && c != '\\' && c >= ' ' ==> r == [c]
  {
    if c == '"' then "\\\""
    else if c == '\\' then "\\\\"
    else if c == '\U{0008}' then "\\b"
    else if c == '\t' then "\\t"
    else if c == '\n' then "\\n"
    else if c == '\U{000C}' then "\\f"
    else if c == '\r' then "\\r"
    else if c < ' ' then "\\u00" + [HexDigit(c as nat / 16), HexDigit(c as nat % 16)]
    else [c]
  }

  function Escape(s: string): string
  {
    if s == [] then [] else EscapeChar(s[0]) + Escape(s[1..])
  }

  /** A string in double quotes, escaped. */
  function Quote(s: string): (r: string)
    ensures |r| >= 2 && r[0] == '"' && r[|r| - 1] == '"'
  {
    "\"" + Escape(s) + "\""
  }

  /** The texts joined with commas. */
  function Join(parts: seq<string>): string
  {
    if parts == [] then ""
    else if |parts| == 1 then parts[0]
    else parts[0] + "," + Join(parts[1..])
  }

  /**
    `JSON.stringify(j)` without indentation. The first character tells the
    kind of value, so the text is never empty.
   */
  function Stringify(j: Json): (r: string)
    ensures |r| > 0
    ensures r[0] == 'n' <==> j.JNull?
    ensures r[0] == 't' <==> j == JBool(true)
    ensures r[0] == 'f' <==> j == JBool(false)
    ensures r[0] == '-' || '0' <= r[0] <= '9' <==> j.JNum?
    ensures r[0] == '"' <==> j.JStr?
    ensures r[0] == '[' <==> j.JArr?
    ensures r[0] == '{' <==> j.JObj?
  {
    match j
    case JNull => "null"
    case JBool(b) => if b then "true" else "false"
    case JNum(n) => IntText(n)
    case JStr(s) => Quote(s)
    case JArr(items) =>
      "[" + Join(seq(|items|, i requires 0 <= i < |items| => Stringify(items[i]))) + "]"
    case JObj(ms) =>
      "{" + Join(seq(|ms|, i requires 0 <= i < |ms| => Quote(ms[i].0) + ":" + Stringify(ms[i].1))) + "}"
  }
}

=== FILE: registry.dfy ===
/**
  The user registry of the backend: the `users.json` map and the `/signup`
  and `/login` endpoints. The file is the map itself here; reading and
  writing it are left out.
 */
module Registry {
  import opened Wrappers
  import opened Json
  import opened Http

  /** A stored account: the e-mail and the bcrypt hash of the password. */
  datatype Account = Account(email: string, password: string)

  /** Usernames to accounts, as `users.json` holds them. */
  type Users = map<string, Account>

  /**
    `hash_password` and `check_password`, uninterpreted. bcrypt draws a fresh
    salt on every call, so the hash takes the salt as a second argument.
   */
  datatype Hasher = Hasher(hash: (string, string) -> string, check: (string, string) -> bool)

  /** The bcrypt round trip: a password checks against every hash made from it. */
  ghost predicate Sound(h: Hasher) {
    forall password, salt :: h.check(h.hash(password, salt), password)
  }

  const DuplicateDetail := "Username already exists"
  const EmptyFieldDetail := "Please fill out all fields"
  const CreatedMessage := "User created successfully! Please login."
  const UnknownUserDetail := "User does not exist"
  const WrongPasswordDetail := "Incorrect password"

  /**
    Every stored account has a non-empty username and e-mail and a password
    that is the hash of a non-empty password: what `Signup` lets in.
   */
  ghost predicate Valid(users: Users, h: Hasher) {
    forall u :: u in users ==>
      && u != ""
      && users[u].email != ""
      && exists p, salt :: p != "" && users[u].password == h.hash(p, salt)
  }

  /**
    `POST /signup`. The duplicate check comes first, then the empty-field
    check; only a request passing both adds an account, under 201.
   */
  function Signup(users: Users, username: string, email: string, password: string, h: Hasher, salt: string)
    : (r: (Users, Response))
    ensures username in users ==> r == (users, Error(400, DuplicateDetail))
    ensures username !in users && (username == "" || email == "" || password == "") ==>
              r == (users, Error(400, EmptyFieldDetail))
    ensures r.1.status == 201 <==> username !in users && username != "" && email != "" && password != ""
    ensures r.1.status == 201 ==>
              && r.0.Keys == users.Keys + {username}
              && |r.0| == |users| + 1
              && r.0[username] == Account(email, h.hash(password, salt))
              && (forall u :: u in users ==> r.0[u] == users[u])
              && Get(r.1.body, "message") == Some(JStr(CreatedMessage))
    ensures r.1.status != 201 ==> r.0 == users && r.1.status == 400
  {
    if username in users then (users, Error(400, DuplicateDetail))
    else if username == "" || email == "" || password == "" then (users, Error(400, EmptyFieldDetail))
    else
      var users' := users[username := Account(email, h.hash(password, salt))];
      assert users'.Keys == users.Keys + {username};
      (users', Response(201, JObj([("message", JStr(CreatedMessage))])))
  }

  /** Signup keeps the registry valid. */
  lemma SignupPreservesValid(users: Users, username: string, email: string, password: string, h: Hasher, salt: string)
    requires Valid(users, h)
    ensures Valid(Signup(users, username, email, password, h, salt).0, h)
  {
  }


  /** The greeting `/login` returns. */
  function Welcome(username: string): string {
    "Welcome, " + username + "!"
  }

  /**
    `POST /login`. An unknown user gets 404, a password that does not check
    gets 401, and only a known user with a checking password gets 200 with
    the username echoed back.
   */
  function Login(users: Users, username: string, password: string, h: Hasher): (r: Response)
    ensures username !in users ==> r == Error(404, UnknownUserDetail)
    ensures username in users && !h.check(users[username].password, password) ==>
              r == Error(401, WrongPasswordDetail)
    ensures IsOk(r.status) <==> username in users && h.check(users[username].password, password)
    ensures IsOk(r.status) ==>
              && r.status == 200
              && Get(r.body, "username") == Some(JStr(username))
              && Get(r.body, "message") == Some(JStr(Welcome(username)))
  {
    if username !in users then Error(404, UnknownUserDetail)
    else if !h.check(users[username].password, password) then Error(401, WrongPasswordDetail)
    else
      var ms := [("message", JStr(Welcome(username))), ("username", JStr(username))];
      assert ms[..1] == [("message", JStr(Welcome(username)))];
      assert "username" != "message" by { assert "username"[0] != "message"[0]; }
      assert Find(ms[..1], "message") == Some(JStr(Welcome(username)));
      Response(200, JObj(ms))
  }

  /** With the bcrypt round trip, a fresh signup can log in with the same password. */
  lemma SignupThenLogin(users: Users, username: string, email: string, password: string, h: Hasher, salt: string)
    requires Sound(h)
    requires username !in users && username != "" && email != "" && password != ""
    ensures var users' := Signup(users, username, email, password, h, salt).0;
            var r := Login(users', username, password, h);
            r.status == 200 && Get(r.body, "username") == Some(JStr(username))
  {
  }

}

=== FILE: server.dfy ===
/**
  The backend as one state machine: the registry is the only state, the
  encoders and the dataset are loaded once and never change, and each
  request is answered by the endpoint it names.
 */
module Server {
  import opened Json
  import opened Http
  import opened Registry
  import opened Catalog

  /** The requests of the endpoints modelled here, with their decoded bodies or path parameters. */
  datatype Request =
    | SignupRequest(username: string, email: string, password: string)
    | LoginRequest(username: string, password: string)
    | OptionsRequest
    | PhoneRequest(model: string)

  /** The user registry and the data loaded at startup. */
  datatype State = State(users: Users, encoders: Encoders, table: seq<Row>)

  /**
    Answers one request. Only a successful signup changes the state, and it
    changes only the registry; the data loaded at startup is never touched.
   */
  function Handle(s: State, req: Request, h: Hasher, salt: string): (r: (State, Response))
    ensures r.0.encoders == s.encoders && r.0.table == s.table
    ensures !req.SignupRequest? ==> r.0 == s
    ensures r.0 != s ==> r.1.status == 201
    ensures req.SignupRequest? ==>
              var (users', resp) := Signup(s.users, req.username, req.email, req.password, h, salt);
              r == (s.(users := users'), resp)
    ensures req.LoginRequest? ==> r.1 == Login(s.users, req.username, req.password, h)
    ensures req.OptionsRequest? ==> r.1 == Response(200, OptionsBody(GetFormOptions(s.encoders, s.table)))
    ensures req.PhoneRequest? ==> r.1 == GetPhoneDetails(s.table, req.model)
  {
    match req
    case SignupRequest(u, e, p) =>
      var (users', resp) := Signup(s.users, u, e, p, h, salt);
      (s.(users := users'), resp)
    case LoginRequest(u, p) => (s, Login(s.users, u, p, h))
    case OptionsRequest => (s, Response(200, OptionsBody(GetFormOptions(s.encoders, s.table))))
    case PhoneRequest(m) => (s, GetPhoneDetails(s.table, m))
  }

  /** Every request keeps the registry valid. */
  lemma HandlePreservesValid(s: State, req: Request, h: Hasher, salt: string)
    requires Valid(s.users, h)
    ensures Valid(Handle(s, req, h, salt).0.users, h)
  {
  }

  /** The JSON type a field of the recommendation input must have. */
  datatype FieldKind = IntField | StrField | BoolField

  predicate HasKind(j: Json, k: FieldKind) {
    match k
    case IntField => j.JNum?
    case StrField => j.JStr?
    case BoolField => j.JBool?
  }

  /** The fields of `RecommendationInput`, under the names the request body uses (the alias for 5G). */
  const RecommendFields: seq<(string, FieldKind)> := [
    ("price", IntField),
    ("brand_name", StrField),
    ("5G_or_not", BoolField),
    ("processor_brand", StrField),
    ("primary_camera_rear", IntField),
    ("fast_charging", IntField),
    ("battery_capacity", IntField),
    ("ram_capacity", IntField),
    ("internal_memory", IntField),
    ("refresh_rate", IntField),
    ("os", StrField)]

  /** A body the `/recommend` validation lets through: every field present with its JSON type. */
  ghost predicate AcceptsRecommendInput(body: Json) {
    forall i :: 0 <= i < |RecommendFields| ==>
      var v := Get(body, RecommendFields[i].0);
      v.Some? && HasKind(v.value, RecommendFields[i].1)
  }
}

=== FILE: session.dfy ===
/**
  The root component: the signed-in identity held in memory and mirrored to
  one key of the browser's local storage. Storage is a map from keys to
  strings; only the one key is ever touched.
 */
module Session {
  import opened Wrappers

  const StorageKey := "phonepro_username"

  type Storage = map<string, string>

  /** The identity in memory (`username` state) and the browser storage. */
  datatype Session = Session(user: Option<string>, storage: Storage)

  /** The identity the root renders the application view for; an empty name is falsy and shows the sign-in view. */
  function SignedIn(s: Session): (r: Option<string>)
    ensures r.Some? <==> s.user.Some? && s.user.value != ""
    ensures r.Some? ==> r == s.user
  {
    if s.user.Some? && s.user.value != "" then s.user else None
  }

  /** `localStorage.getItem(key)`. */
  function Stored(storage: Storage): Option<string> {
    if StorageKey in storage then Some(storage[StorageKey]) else None
  }

  /** Mount: the identity starts out null and is restored from storage only when the stored name is non-empty. */
  function Startup(storage: Storage): (r: Session)
    ensures r.storage == storage
    ensures r.user.Some? <==> StorageKey in storage && storage[StorageKey] != ""
    ensures r.user.Some? ==> r.user.value == storage[StorageKey]
  {
    var saved := Stored(storage);
    if saved.Some? && saved.value != "" then Session(saved, storage) else Session(None, storage)
  }

  /** A successful login: the name is written to storage and becomes the identity. */
  function Authed(s: Session, username: string): (r: Session)
    ensures r.user == Some(username)
    ensures Stored(r.storage) == Some(username)
    ensures forall k :: k != StorageKey ==> (k in r.storage <==> k in s.storage)
    ensures forall k :: k != StorageKey && k in s.storage ==> r.storage[k] == s.storage[k]
  {
    Session(Some(username), s.storage[StorageKey := username])
  }

  /** Logout: the key is removed from storage and the identity cleared. */
  function Logout(s: Session): (r: Session)
    ensures r.user == None && SignedIn(r) == None
    ensures Stored(r.storage) == None
    ensures forall k :: k != StorageKey ==> (k in r.storage <==> k in s.storage)
    ensures forall k :: k != StorageKey && k in s.storage ==> r.storage[k] == s.storage[k]
  {
    Session(None, s.storage - {StorageKey})
  }

  /** A page reload would show the same view, for the same user, as the current state. */
  ghost predicate ReloadAgrees(s: Session) {
    SignedIn(Startup(s.storage)) == SignedIn(s)
  }

  /** The state after mount agrees with a reload. */
  lemma StartupAgrees(storage: Storage)
    ensures ReloadAgrees(Startup(storage))
  {
  }

  /** Login and logout keep storage and memory in agreement, so a reload never changes who is signed in. */
  lemma TransitionsAgree(s: Session, username: string)
    ensures ReloadAgrees(Authed(s, username))
    ensures ReloadAgrees(Logout(s))
  {
  }

  /** After login, a reload restores the same non-empty user; after logout, a reload shows the sign-in view. */
  lemma ReloadAfterLoginAndLogout(s: Session, username: string)
    requires username != ""
    ensures SignedIn(Startup(Authed(s, username).storage)) == Some(username)
    ensures SignedIn(Startup(Logout(s).storage)) == None
  {
  }
}

=== FILE: sorting.dfy ===
/**
  Python's `sorted` on lists of `str`, and `unique` on a column. Any two
  sorted permutations of a list are equal, so the insertion sort written
  here yields exactly what Python's sort yields.
 */
module Sorting {
  import opened Text

  /** Each element is at most its successor in Python's `str` order. */
  ghost predicate Sorted(s: seq<string>) {
    forall i :: 0 < i < |s| ==> LessEq(s[i - 1], s[i])
  }

  /** No element appears twice. */
  ghost predicate Distinct(s: seq<string>) {
    forall x :: multiset(s)[x] <= 1
  }

  /** `x` placed into the sorted list `s` before the first element it does not exceed. */
  function Insert(x: string, s: seq<string>): (r: seq<string>)
    requires Sorted(s)
    ensures Sorted(r)
    ensures multiset(r) == multiset(s) + multiset{x}
    ensures r[0] == x || (s != [] && r[0] == s[0])
  {
    if s == [] then [x]
    else if LessEq(x, s[0]) then [x] + s
    else
      LessEqTotal(x, s[0]);
      var rest := Insert(x, s[1..]);
      assert s == [s[0]] + s[1..];
      [s[0]] + rest
  }

  /** `sorted(xs)`: the elements of `xs` in ascending order. */
  function Sort(xs: seq<string>): (r: seq<string>)
    ensures Sorted(r)
    ensures multiset(r) == multiset(xs)
  {
    if xs == [] then []
    else
      assert xs == [xs[0]] + xs[1..];
      Insert(xs[0], Sort(xs[1..]))
  }

  /** In a sorted list every element is at most every later one. */
  lemma {:induction false} SortedPairwise(s: seq<string>, i: int, j: int)
    requires Sorted(s)
    requires 0 <= i <= j < |s|
    ensures LessEq(s[i], s[j])
    decreases j - i
  {
    if i == j {
      LessEqReflexive(s[i]);
    } else {
      SortedPairwise(s, i, j - 1);
      LessEqTransitive(s[i], s[j - 1], s[j]);
    }
  }

  /** The first element of a non-empty sorted list is at most every element of it. */
  lemma HeadIsLeast(s: seq<string>, x: string)
    requires Sorted(s) && x in s
    ensures LessEq(s[0], x)
  {
    var j :| 0 <= j < |s| && s[j] == x;
    SortedPairwise(s, 0, j);
  }

  /** Two sorted lists with the same elements are the same list. */
  lemma {:induction false} SortedPermutationUnique(a: seq<string>, b: seq<string>)
    requires Sorted(a) && Sorted(b)
    requires multiset(a) == multiset(b)
    ensures a == b
  {
    if a != [] && b != [] {
      assert a[0] in multiset(b);
      assert b[0] in multiset(a);
      HeadIsLeast(a, b[0]);
      HeadIsLeast(b, a[0]);
      LessEqAntisymmetric(a[0], b[0]);
      DropFirst(a);
      DropFirst(b);
      SortedPermutationUnique(a[1..], b[1..]);
    }
  }

  /** Dropping the first element removes one occurrence of it. */
  lemma DropFirst(a: seq<string>)
    requires a != []
    ensures multiset(a[1..]) == multiset(a) - multiset{a[0]}
  {
    assert a == [a[0]] + a[1..];
  }

  /** Sorting a sorted list changes nothing. */
  lemma SortSorted(xs: seq<string>)
    requires Sorted(xs)
    ensures Sort(xs) == xs
  {
    SortedPermutationUnique(Sort(xs), xs);
  }

  /** `pd.Series.unique()`: each value once, in order of first appearance. */
  function Unique(xs: seq<string>): (r: seq<string>)
    ensures Distinct(r)
    ensures forall x :: x in r <==> x in xs
  {
    if xs == [] then []
    else
      var rest := Unique(xs[..|xs| - 1]);
      var last := xs[|xs| - 1];
      assert xs == xs[..|xs| - 1] + [last];
      if last in rest then rest else rest + [last]
  }

  /** Sorting keeps a list free of duplicates. */
  lemma SortDistinct(xs: seq<string>)
    requires Distinct(xs)
    ensures Distinct(Sort(xs))
  {
  }
}

=== FILE: text.dfy ===
/**
  The string operations the client and the server rely on: JavaScript's
  `trim`, `toLowerCase` and `includes`, and Python's ordering of `str`.
 */
module Text {

  /**
    The WhiteSpace and LineTerminator code points of ECMA-262 (sections 12.2
    and 12.3), which `String.prototype.trim` removes from both ends.
   */
  predicate IsSpace(c: char) {
    || c == '\t' || c == '\U{000B}' || c == '\U{000C}' || c == ' '
    || c == '\U{00A0}' || c == '\U{FEFF}' || c == '\U{1680}'
    || ('\U{2000}' <= c <= '\U{200A}')
    || c == '\U{202F}' || c == '\U{205F}' || c == '\U{3000}'
    || c == '\n' || c == '\r' || c == '\U{2028}' || c == '\U{2029}'
  }

  predicate AllSpace(s: string) {
    forall i :: 0 <= i < |s| ==> IsSpace(s[i])
  }

  /** The number of white-space characters `s` starts with. */
  function LeadingSpaces(s: string): (n: nat)
    ensures n <= |s|
    ensures forall k :: 0 <= k < n ==> IsSpace(s[k])
    ensures n < |s| ==> !IsSpace(s[n])
  {
    if s != [] && IsSpace(s[0]) then 1 + LeadingSpaces(s[1..]) else 0
  }

  /** The position where the white space that `s` ends with begins. */
  function TrailingStart(s: string): (n: nat)
    ensures n <= |s|
    ensures forall k :: n <= k < |s| ==> IsSpace(s[k])
    ensures n > 0 ==> !IsSpace(s[n - 1])
  {
    if s != [] && IsSpace(s[|s| - 1]) then TrailingStart(s[..|s| - 1]) else |s|
  }

  /** `r` is the slice of `s` of its own length starting at `i`. */
  ghost predicate SliceAt(s: string, r: string, i: int) {
    0 <= i <= |s| - |r| && r == s[i..i + |r|]
  }

  /** `r` is the slice of `s` at `i`, and everything before and after it is white space. */
  ghost predicate Stripped(s: string, r: string, i: int) {
    SliceAt(s, r, i) && AllSpace(s[..i]) && AllSpace(s[i + |r|..])
  }

  /**
    `s.trim()`: the slice of `s` between its leading and trailing white space.
    It is empty exactly when `s` is all white space.
   */
  function Trim(s: string): (r: string)
    ensures exists i :: Stripped(s, r, i)
    ensures r == [] <==> AllSpace(s)
    ensures r == [] || (!IsSpace(r[0]) && !IsSpace(r[|r| - 1]))
  {
    var a := LeadingSpaces(s);
    if a == |s| then
      assert Stripped(s, [], 0) by {
        assert s[..0] == [] && s[0..] == s;
      }
      []
    else
      var b := TrailingStart(s);
      assert a < b;
      assert Stripped(s, s[a..b], a) by {
        assert forall k :: 0 <= k < a ==> s[..a][k] == s[k];
        assert forall k :: 0 <= k < |s| - b ==> s[b..][k] == s[b + k];
      }
      s[a..b]
  }

  /** Lower case of one character; ASCII letters only (see the README). */
  function LowerChar(c: char): (r: char)
    ensures !('A' <= r <= 'Z')
    ensures 'A' <= c <= 'Z' ==> r as int == c as int + 32
    ensures !('A' <= c <= 'Z') ==> r == c
  {
    if 'A' <= c <= 'Z' then (c as int + 32) as char else c
  }

  /** `s.toLowerCase()`, character by character. */
  function Lower(s: string): (r: string)
    ensures |r| == |s|
    ensures forall i :: 0 <= i < |s| ==> r[i] == LowerChar(s[i])
  {
    seq(|s|, i requires 0 <= i < |s| => LowerChar(s[i]))
  }

  /** `hay.includes(needle)`: executable form, trying each start position in turn. */
  predicate Includes(hay: string, needle: string)
    decreases |hay|
  {
    needle <= hay || (hay != [] && Includes(hay[1..], needle))
  }

  /** `needle` occurs in `hay` starting at position `i`. */
  ghost predicate OccursAt(hay: string, needle: string, i: int) {
    0 <= i <= |hay| - |needle| && hay[i..i + |needle|] == needle
  }

  /** `needle` is a substring of `hay`. */
  ghost predicate Occurs(hay: string, needle: string) {
    exists i :: OccursAt(hay, needle, i)
  }

  /** The scan agrees with the substring definition, in both directions. */
  lemma {:induction false} IncludesIffOccurs(hay: string, needle: string)
    ensures Includes(hay, needle) <==> Occurs(hay, needle)
    decreases |hay|
  {
    if needle <= hay {
      assert OccursAt(hay, needle, 0);
    } else if hay == [] {
      assert !Occurs(hay, needle) by {
        forall i | OccursAt(hay, needle, i) ensures false {
        }
      }
    } else {
      IncludesIffOccurs(hay[1..], needle);
      if Includes(hay[1..], needle) {
        var i :| OccursAt(hay[1..], needle, i);
        assert hay[i + 1..i + 1 + |needle|] == hay[1..][i..i + |needle|];
        assert OccursAt(hay, needle, i + 1);
      } else {
        assert !Occurs(hay, needle) by {
          forall i | OccursAt(hay, needle, i) ensures false {
            if i == 0 {
              assert false;
            } else {
              assert hay[1..][i - 1..i - 1 + |needle|] == hay[i..i + |needle|];
              assert OccursAt(hay[1..], needle, i - 1);
            }
          }
        }
      }
    }
  }

  /** Python's `a <= b` on `str`: lexicographic by code point, a prefix first. */
  predicate LessEq(a: string, b: string) {
    a == [] || (b != [] && (a[0] < b[0] || (a[0] == b[0] && LessEq(a[1..], b[1..]))))
  }

  lemma {:induction false} LessEqReflexive(a: string)
    ensures LessEq(a, a)
  {
    if a != [] {
      LessEqReflexive(a[1..]);
    }
  }

  lemma {:induction false} LessEqTotal(a: string, b: string)
    ensures LessEq(a, b) || LessEq(b, a)
  {
    if a != [] && b != [] && a[0] == b[0] {
      LessEqTotal(a[1..], b[1..]);
    }
  }

  lemma {:induction false} LessEqAntisymmetric(a: string, b: string)
    requires LessEq(a, b) && LessEq(b, a)
    ensures a == b
  {
    if a != [] && b != [] {
      LessEqAntisymmetric(a[1..], b[1..]);
      assert a == [a[0]] + a[1..];
      assert b == [b[0]] + b[1..];
    }
  }

  lemma {:induction false} LessEqTransitive(a: string, b: string, c: string)
    requires LessEq(a, b) && LessEq(b, c)
    ensures LessEq(a, c)
  {
    if a != [] && b != [] && c != [] && a[0] == b[0] && b[0] == c[0] {
      LessEqTransitive(a[1..], b[1..], c[1..]);
    }
  }
}

=== FILE: wrappers.dfy ===
/** Optional values, standing for JavaScript's `null`/`undefined` and Python's missing keys. */
module Wrappers {

  datatype Option<+T> = None | Some(value: T) {

    /** The value, or `default` when there is none (JavaScript's `x ?? default`). */
    function GetOr(default: T): (r: T)
      ensures Some? ==> r == value
      ensures None? ==> r == default
    {
      match this
      case Some(v) => v
      case None => default
    }
  }
}
